=== FILE: README.md ===
# Crane unloading: exhaustive and dynamic-programming solvers

A Dafny model of the two solvers in `cranes_algs.hpp` for the crane unloading
problem. A grid of cells holds buildings and open cells with crane counts. A
path starts at the north-west corner (0,0) and moves only EAST or SOUTH. It
never leaves the grid or enters a building, and it may stop anywhere. Its
score is the sum of the crane counts of the cells it visits, the origin
included.

- `grids.dfy` (`Grids`): the read-only grid. It provides the dimensions, cell
  lookup and the building test.
- `paths.dfy` (`Paths`): paths as move sequences, with their end cell, their
  validity and their score. It also holds the `Path` record (moves, position,
  running total) with the fresh path, `is_step_valid` and `add_step`.
- `exhaustive.dfy` (`Exhaustive`): `crane_unloading_exhaustive`. It
  enumerates the arrangements of EAST/SOUTH moves for each split, replays each
  one until its first invalid step, and keeps the best under a strict `>`.
- `dynprog.dfy` (`DynProg`): `crane_unloading_dyn_prog`. A row-major pass
  fills a table of optional best paths and tracks the best cell under a strict
  `>`.
- `agreement.dfy` (`Agreement`): both solvers return equal totals on every
  grid that both accept.
- `examples_grids.dfy` (`Examples`): small grids on which the results of both
  solvers are pinned down exactly.

The grid and path classes live in `cranes_types.hpp`, which is not part of
this model. They are modelled through the interface the solvers use:
- `rows()`, `columns()` and `get(r, c)`, with cells either `Building` or
  `Open(cranes)`;
- a fresh path at (0,0) whose total is the origin's crane count (0 for a
  building);
- `is_step_valid(d)`, which holds when the next cell is inside the grid and
  not a building (the current cell is not checked);
- `add_step(d)`, which needs a valid step and appends the move, moves, and
  adds the new cell's count;
- `total_cranes()`.

The source's `assert`s become `requires` clauses: a non-empty grid for both
solvers, and `rows + columns - 2 < 64` for the exhaustive one. The dynamic
program also requires an open origin. `DynProg.Fill` proves why: with a
building at (0,0), the entry of the chosen best cell is empty exactly then, so
the assertion at line 153 fails.

## Model

| member | source | states |
|---|---|---|
| Paths.EndOf | cranes_algs.hpp:112-128 | a path of n moves ends on anti-diagonal n (row + column = n), so every path to cell (r,c) has exactly r+c moves |
| Paths.Start | cranes_algs.hpp:42 | a fresh path has no moves, stands at the origin, and its total is the origin's score |
| Paths.StepValidExtends | cranes_algs.hpp:55 | on a consistent path, `is_step_valid` holds exactly when the moves extended by that step still form a valid path |
| Paths.AddStep | cranes_algs.hpp:57 | `add_step` appends exactly the given move and never lowers the total |
| Paths.AddStepConsistent | cranes_algs.hpp:55-57 | after a valid step, the position and total still match the moves, and every cell entered is open |
| Paths.ValidPrefix | cranes_algs.hpp:53-63 | any prefix of a valid move sequence is valid |
| Paths.ValidLength | cranes_algs.hpp:36-38 | a valid path stays in the grid, so it has at most rows+columns-2 moves |
| Exhaustive.ArrangementsShape | cranes_algs.hpp:46-47 | each enumerated sequence has max_steps moves, `steps` of them EAST, like the vector the split starts from |
| Exhaustive.ArrangementsComplete | cranes_algs.hpp:46-69 | every sequence of max_steps moves with k EASTs is enumerated for split k |
| Exhaustive.ArrangementsExactly | cranes_algs.hpp:44-69 | split k enumerates exactly the length-max_steps sequences with k EASTs (both directions) |
| Exhaustive.ArrangementsSorted | cranes_algs.hpp:49-69 | each split's arrangements come in strictly increasing lexicographic order, EAST before SOUTH: the order next-permutation visits them in |
| Exhaustive.ArrangementsDistinct | cranes_algs.hpp:49-69 | no arrangement of a split is visited twice |
| Exhaustive.Replay | cranes_algs.hpp:51-63 | replaying moves never lowers the total |
| Exhaustive.ReplayConsistent | cranes_algs.hpp:51-63 | a replay from a fresh path yields a valid path whose position and total match its moves |
| Exhaustive.ReplayTakesPrefix | cranes_algs.hpp:53-63 | a replay's moves are a prefix of the direction sequence, and it stops short only at a step that is not valid |
| Exhaustive.ReplayCovers | cranes_algs.hpp:53-63 | replaying a valid path followed by any moves scores at least that path's score |
| Exhaustive.KeepBest | cranes_algs.hpp:49-69 | the kept path scores at least the incoming best and every replay; it stays the incoming best unless some replay scores strictly more, and otherwise it is the first replay with the greatest total |
| Exhaustive.NewBest | cranes_algs.hpp:44-69 | when a split replaces the best path, the new best is the first replay in search order (fewer EASTs first, then lexicographic) to reach its total |
| Exhaustive.Solve | cranes_algs.hpp:30-73 | the result is a valid path scoring at least every valid path and every replayed arrangement; it is the fresh path exactly when no replay scores strictly more, and otherwise the replay of an arrangement before which, in search order, every replay scores strictly less |
| DynProg.Merge | cranes_algs.hpp:130-141 | empty only when both candidates are; otherwise a candidate at least as good as each present one; a tie goes to "from above" |
| DynProg.OriginEntry | cranes_algs.hpp:92-93 | the fresh path is the right entry for an open origin, and an empty entry is right for a building origin |
| DynProg.BuildingEntry | cranes_algs.hpp:103-107 | an empty entry is right for a building cell: no path ends there |
| DynProg.MergeStep | cranes_algs.hpp:109-141 | merging the above entry extended SOUTH with the left entry extended EAST gives the best path to the cell, or none when it is unreachable |
| DynProg.OpenCell | cranes_algs.hpp:109-141 | the entry computed for an open cell is right: best over all paths ending there, and empty iff the cell is unreachable; with only an entry above, it is that entry extended SOUTH; with only an entry to the left, that entry extended EAST; with both, the one above extended SOUTH unless the left one scores strictly more |
| DynProg.ProcessCell | cranes_algs.hpp:103-141 | processing one cell makes its entry right, builds it from its neighbours' entries by the rule OpenCell states, and changes no other entry |
| DynProg.TrackBest | cranes_algs.hpp:143-148 | the best cell moves only on a strictly greater total, so it stays the first cell in row-major order with the greatest total |
| DynProg.FillRow | cranes_algs.hpp:101-149 | after a row, every entry up to that row is right and the best-cell bookkeeping holds |
| DynProg.Fill | cranes_algs.hpp:89-153 | buildings hold none; each entry is none iff unreachable, else the best path to its cell with r+c moves; the best cell is the first with the greatest total (origin by default); its entry exists iff the origin is open; every open cell with a neighbour entry extends the only one there is (SOUTH from above, EAST from the left), or with both, the one above unless the left one scores strictly more |
| DynProg.Solve | cranes_algs.hpp:80-156 | with an open origin, the result is a valid path from the origin that scores at least every valid path, and every valid path ending at an earlier cell in row-major order scores strictly less; it is the entry of its cell in a table of right entries, each built from its neighbours' entries by that same rule |
| Agreement.OptimaAgree | cranes_algs.hpp:22-23 | two valid paths that each score at least every valid path have equal totals |
| Agreement.CompareSolvers | cranes_algs.hpp:75-76 | on a grid both solvers accept, their totals are equal |
| Examples.Detour | cranes_algs.hpp:30-156 | on that grid, both solvers return SOUTH, EAST with 3 cranes |
| Examples.BestCellNotCorner | cranes_algs.hpp:143-155 | on that grid, both solvers stop after one EAST move with 6 cranes, not at the corner |
| Examples.TieBreak | cranes_algs.hpp:30-156 | on the all-ones 2x2 grid, EAST, SOUTH and SOUTH, EAST tie; the exhaustive solver keeps the first it replays and the dynamic program the path from above at (1,1), so both return EAST, SOUTH |
| Examples.Ledge | cranes_algs.hpp:30-156 | on the 3x2 grid of single cranes with a building in the south-west corner, EAST, SOUTH, SOUTH and SOUTH, EAST, SOUTH tie at 4; the exhaustive solver keeps the first it replays, and the dynamic program extends the tie-break at (1,1) by SOUTH, the only way into (2,1), so both return EAST, SOUTH, SOUTH |
| Examples.SingleCell | cranes_algs.hpp:42-72 | on a 1x1 open grid with k cranes, both solvers return the empty path scoring k |
| Examples.BuildingOrigin | cranes_algs.hpp:51-68 | on a 1x2 grid whose origin is a building and k cranes east, the exhaustive solver returns EAST scoring k when k > 0, and the empty path when k = 0 |
| Examples.ZeroCranes | cranes_algs.hpp:65-68 | on a 1x2 grid of open cells without cranes, the step EAST only ties, so both solvers return the empty path |

## Left out

- The grid storage, the path class fields, and printing and parsing live in
  `cranes_types.hpp`, which is not part of this model. Only the interface
  listed above is modelled.
- `std::next_permutation` is modelled by `Exhaustive.Arrangements`, which
  gives each split's arrangements in lexicographic order, EAST first
  (`Exhaustive.ArrangementsSorted`). `Exhaustive.Solve` relies on that order
  when it names which of several equal-scoring replays it returns. This assumes `STEP_DIRECTION_EAST` is
  numerically below `STEP_DIRECTION_SOUTH`, so that the starting vector is
  the first permutation and the do-while loop visits every arrangement. The
  assumption is stated, not proved. Were it false, the starting vector
  [EAST…, SOUTH…] would be the last permutation: `next_permutation` would
  return false at once, and each split would replay only that one
  arrangement.
- The `unsigned int` and `size_t` widths of totals, `most_cranes` and
  `max_steps` are not modelled: the model uses unbounded naturals. The
  `max_steps < 64` bound is kept as a precondition.
- Running time and the cost of copying paths are not modelled.
- `assert` as a process abort is not modelled. The asserts are preconditions,
  except the one at line 153, whose failure on a building origin
  `DynProg.Fill` states.
- The unused `<math.h>` include and any benchmark or timing harness are left
  out.
- With a building origin, the modelled `is_step_valid` still lets the
  exhaustive solver leave the origin, because it checks only the cell
  entered. `Examples.BuildingOrigin` shows that solver collecting cranes
  there, so it is not shown to return a zero-score path.
  Whether the real path class refuses such a path depends on
  `cranes_types.hpp`, which is not part of this model.

=== FILE: agreement.dfy ===
/** The two solvers solve the same problem: on every grid both accept, the
    paths they return score the same. */
module Agreement {
  import opened Grids
  import opened Paths
  import Exhaustive
  import DynProg

  /** Two valid paths that each score at least as much as every valid path
      score the same. */
  lemma OptimaAgree(g: Grid, p: Path, q: Path)
    requires Consistent(g, p) && Consistent(g, q)
    requires forall s :: ValidSteps(g, s) ==> Score(g, s) <= p.total
    requires forall s :: ValidSteps(g, s) ==> Score(g, s) <= q.total
    ensures p.total == q.total
  {
  }

  /** Run both solvers on one grid; their totals are equal. */
  method CompareSolvers(g: Grid) returns (exhaustive: Path, dynamic: Path)
    requires g.rows > 0 && g.columns > 0
    requires MaxSteps(g) < 64
    requires IsOpen(g, Pos(0, 0))
    ensures exhaustive.total == dynamic.total
  {
    exhaustive := Exhaustive.Solve(g);
    ghost var table;
    dynamic, table := DynProg.Solve(g);
    OptimaAgree(g, exhaustive, dynamic);
  }
}

=== FILE: dynprog.dfy ===
/** The dynamic-programming solver: a row-major pass over the grid filling a
    table whose entry for each cell is the best path ending there, or nothing
    when no path reaches it, while tracking the best entry seen so far. */
module DynProg {
  import opened Grids
  import opened Paths

  datatype Option<T> = None | Some(value: T)

  /** The moves `s` form a path from the origin, on open ground, to `pos`. */
  predicate RouteTo(g: Grid, s: seq<Direction>, pos: Pos) {
    Route(g, s) && EndOf(s) == pos
  }

  /** Some path from the origin ends at `pos`. */
  ghost predicate Reachable(g: Grid, pos: Pos) {
    exists s :: RouteTo(g, s, pos)
  }

  /** The table entry for `pos` is right: empty when `pos` is unreachable,
      otherwise a path ending at `pos` that scores at least as much as every
      path ending there. */
  ghost predicate BestEntry(g: Grid, pos: Pos, entry: Option<Path>) {
    match entry
    case None => !Reachable(g, pos)
    case Some(p) =>
      && Consistent(g, p) && p.at == pos
      && IsOpen(g, Pos(0, 0)) && IsOpen(g, pos)
      && forall s :: RouteTo(g, s, pos) ==> Score(g, s) <= p.total
  }

  /** Cell (i, j) comes strictly before cell (r, c) in row-major order. */
  predicate Before(i: nat, j: nat, r: nat, c: nat) {
    i < r || (i == r && j < c)
  }

  /** The choice between the path extended from above and the one extended
      from the left: the higher total wins, and a tie goes to the one from
      above. */
  function Merge(above: Option<Path>, left: Option<Path>): (m: Option<Path>)
    ensures m.None? <==> above.None? && left.None?
    ensures m.Some? ==> m == above || m == left
    ensures above.Some? ==> m.Some? && above.value.total <= m.value.total
    ensures left.Some? ==> m.Some? && left.value.total <= m.value.total
    ensures above.Some? && left.Some? && above.value.total == left.value.total ==> m == above
  {
    if above.Some? && left.Some? then
      (if above.value.total >= left.value.total then above else left)
    else if above.Some? then above
    else left
  }

  /** The origin's entry is the fresh path when the origin is open. */
  lemma OriginEntry(g: Grid)
    requires g.rows > 0 && g.columns > 0
    ensures BestEntry(g, Pos(0, 0), if IsOpen(g, Pos(0, 0)) then Some(Start(g)) else None)
  {
  }

  /** A building cell's entry is empty: no path ends on a building. */
  lemma BuildingEntry(g: Grid, pos: Pos)
    requires InBounds(g, pos) && Get(g, pos).Building?
    ensures BestEntry(g, pos, None)
  {
  }

  /** The recurrence: for an open cell other than the origin, every path to
      it ends with a SOUTH move from the cell above or an EAST move from the
      cell to the left, so merging the best entries of those two cells, each
      extended by one move, gives a right entry for the cell. */
  lemma {:induction false} MergeStep(g: Grid, pos: Pos, pa: Option<Path>, pl: Option<Path>,
                                     above: Option<Path>, left: Option<Path>)
    requires IsOpen(g, pos) && pos != Pos(0, 0)
    requires pos.row > 0 ==> BestEntry(g, Pos(pos.row - 1, pos.col), pa)
    requires pos.col > 0 ==> BestEntry(g, Pos(pos.row, pos.col - 1), pl)
    requires above.Some? <==> pos.row > 0 && pa.Some?
    requires left.Some? <==> pos.col > 0 && pl.Some?
    requires above.Some? ==> pa.Some? && IsStepValid(g, pa.value, South) && above.value == AddStep(g, pa.value, South)
    requires left.Some? ==> pl.Some? && IsStepValid(g, pl.value, East) && left.value == AddStep(g, pl.value, East)
    ensures BestEntry(g, pos, Merge(above, left))
  {
    if above.Some? {
      AddStepConsistent(g, pa.value, South);
    }
    if left.Some? {
      AddStepConsistent(g, pl.value, East);
    }
    var m := Merge(above, left);
    forall s | RouteTo(g, s, pos)
      ensures m.Some? && Score(g, s) <= m.value.total
    {
      assert s != [];
      var prev := Init(s);
      assert Route(g, prev);
      if Last(s) == South {
        assert RouteTo(g, prev, Pos(pos.row - 1, pos.col));
        assert above.Some?;
      } else {
        assert RouteTo(g, prev, Pos(pos.row, pos.col - 1));
        assert left.Some?;
      }
    }
    if m.None? {
      assert !Reachable(g, pos);
    }
  }

  predicate Shaped(g: Grid, table: seq<seq<Option<Path>>>) {
    |table| == g.rows && forall i :: 0 <= i < g.rows ==> |table[i]| == g.columns
  }

  /** The table after every cell before (r, c) in row-major order has been
      processed: those entries are right, the rest are still as initialised. */
  ghost predicate Filled(g: Grid, table: seq<seq<Option<Path>>>, r: nat, c: nat) {
    && Shaped(g, table)
    && (forall i, j {:trigger BestEntry(g, Pos(i, j), table[i][j])} ::
          0 <= i < g.rows && 0 <= j < g.columns && Before(i, j, r, c) ==> BestEntry(g, Pos(i, j), table[i][j]))
    && (forall i, j :: 0 <= i < g.rows && 0 <= j < g.columns && !Before(i, j, r, c) && Pos(i, j) != Pos(0, 0) ==>
          table[i][j].None?)
    && (r == 0 && c == 0 && g.rows > 0 && g.columns > 0 ==> table[0][0] == Some(Start(g)))
  }

  /** The best-cell bookkeeping after every cell before (r, c) has been
      processed: `most` bounds every processed entry, the best cell is the
      first to reach it, and it stays at the origin while `most` is zero. */
  predicate Tracked(g: Grid, table: seq<seq<Option<Path>>>, r: nat, c: nat, most: nat, bestRow: nat, bestCol: nat)
    requires Shaped(g, table)
  {
    && bestRow < g.rows && bestCol < g.columns
    && (forall i, j :: 0 <= i < g.rows && 0 <= j < g.columns && Before(i, j, r, c) && table[i][j].Some? ==>
          table[i][j].value.total <= most)
    && (forall i, j :: 0 <= i < g.rows && 0 <= j < g.columns && Before(i, j, bestRow, bestCol) ==>
          table[i][j].None? || table[i][j].value.total < most)
    && ((most == 0 && bestRow == 0 && bestCol == 0) ||
        (0 < most && Before(bestRow, bestCol, r, c) && table[bestRow][bestCol].Some? &&
         table[bestRow][bestCol].value.total == most))
  }

  /** How the entry of an open cell other than the origin is built from its
      neighbours' entries: when only one of the entry above and the entry to
      the left exists, it is extended by SOUTH or EAST respectively; when
      both exist, the one above is extended by SOUTH unless the one to the
      left scores strictly more, in which case that one is extended by EAST. */
  ghost predicate BuiltFrom(g: Grid, table: seq<seq<Option<Path>>>, i: nat, j: nat)
    requires Shaped(g, table) && i < g.rows && j < g.columns
  {
    var hasAbove := 0 < i && table[i - 1][j].Some?;
    var hasLeft := 0 < j && table[i][j - 1].Some?;
    IsOpen(g, Pos(i, j)) && (hasAbove || hasLeft) ==>
      && table[i][j].Some?
      && table[i][j].value.steps ==
           if hasAbove && (!hasLeft || table[i][j - 1].value.total <= table[i - 1][j].value.total)
           then table[i - 1][j].value.steps + [South]
           else table[i][j - 1].value.steps + [East]
  }

  /** Every cell before (r, c) in row-major order was built by the neighbour rule. */
  ghost predicate Ties(g: Grid, table: seq<seq<Option<Path>>>, r: nat, c: nat)
    requires Shaped(g, table)
  {
    forall i, j {:trigger BuiltFrom(g, table, i, j)} ::
      0 <= i < g.rows && 0 <= j < g.columns && Before(i, j, r, c) ==> BuiltFrom(g, table, i, j)
  }

  /** Setting the entry of (r, c) disturbs no earlier cell's neighbour rule, since
      an earlier cell's neighbours above and to the left are earlier still. */
  lemma TiesExtend(g: Grid, table: seq<seq<Option<Path>>>, r: nat, c: nat, entry: Option<Path>)
    requires r < g.rows && c < g.columns && Shaped(g, table)
    requires Ties(g, table, r, c)
    requires BuiltFrom(g, table[r := table[r][c := entry]], r, c)
    ensures Ties(g, table[r := table[r][c := entry]], r, c + 1)
  {
    var next := table[r := table[r][c := entry]];
    forall i, j | 0 <= i < g.rows && 0 <= j < g.columns && Before(i, j, r, c + 1)
      ensures BuiltFrom(g, next, i, j)
    {
      if Before(i, j, r, c) {
        assert BuiltFrom(g, table, i, j);
        assert next[i][j] == table[i][j];
        assert 0 < i ==> next[i - 1][j] == table[i - 1][j];
        assert 0 < j ==> next[i][j - 1] == table[i][j - 1];
      }
    }
  }

  /** A fully processed row r is the same region as "before row r + 1". */
  lemma TiesRowDone(g: Grid, table: seq<seq<Option<Path>>>, r: nat)
    requires Shaped(g, table) && Ties(g, table, r, g.columns)
    ensures Ties(g, table, r + 1, 0)
  {
    forall i, j | 0 <= i < g.rows && 0 <= j < g.columns && Before(i, j, r + 1, 0)
      ensures BuiltFrom(g, table, i, j)
    {
      assert Before(i, j, r, g.columns);
    }
  }

  /** Setting a right entry for (r, c) extends the processed region by one cell. */
  lemma SetEntry(g: Grid, table: seq<seq<Option<Path>>>, r: nat, c: nat, entry: Option<Path>)
    requires r < g.rows && c < g.columns
    requires Filled(g, table, r, c)
    requires BestEntry(g, Pos(r, c), entry)
    ensures Filled(g, table[r := table[r][c := entry]], r, c + 1)
  {
  }

  /** One cell of the row-major pass: a building gets an empty entry; any
      other cell gets the entry OpenCell computes from its neighbours. */
  method ProcessCell(g: Grid, table: seq<seq<Option<Path>>>, r: nat, c: nat) returns (next: seq<seq<Option<Path>>>)
    requires r < g.rows && c < g.columns
    requires Filled(g, table, r, c) && Ties(g, table, r, c)
    ensures Filled(g, next, r, c + 1) && Ties(g, next, r, c + 1)
    ensures forall i, j :: 0 <= i < g.rows && 0 <= j < g.columns && Pos(i, j) != Pos(r, c) ==>
              next[i][j] == table[i][j]
  {
    var entry: Option<Path>;
    if Get(g, Pos(r, c)).Building? {
      BuildingEntry(g, Pos(r, c));
      entry := None;
    } else {
      assert r > 0 ==> Before(r - 1, c, r, c);
      assert c > 0 ==> Before(r, c - 1, r, c);
      entry := OpenCell(g, r, c, if r > 0 then table[r - 1][c] else None,
                        if c > 0 then table[r][c - 1] else None, table[r][c]);
    }
    SetEntry(g, table, r, c, entry);
    next := table[r := table[r][c := entry]];
    assert r > 0 ==> next[r - 1][c] == table[r - 1][c];
    assert c > 0 ==> next[r][c - 1] == table[r][c - 1];
    assert BuiltFrom(g, next, r, c);
    TiesExtend(g, table, r, c, entry);
  }

  /** The entry of an open cell, given the entries above and to the left
      and the cell's current entry: the better of the entry above extended
      SOUTH and the entry to the left extended EAST, the one above on a tie,
      or the current entry when neither exists. The result is right for the
      cell. */
  method OpenCell(g: Grid, r: nat, c: nat, above: Option<Path>, left: Option<Path>, current: Option<Path>)
    returns (entry: Option<Path>)
    requires IsOpen(g, Pos(r, c))
    requires r > 0 ==> BestEntry(g, Pos(r - 1, c), above)
    requires c > 0 ==> BestEntry(g, Pos(r, c - 1), left)
    requires current == if r == 0 && c == 0 then Some(Start(g)) else None
    ensures BestEntry(g, Pos(r, c), entry)
    ensures r > 0 && above.Some? && !(c > 0 && left.Some?) ==> entry == Some(AddStep(g, above.value, South))
    ensures c > 0 && left.Some? && !(r > 0 && above.Some?) ==> entry == Some(AddStep(g, left.value, East))
    ensures r > 0 && c > 0 && above.Some? && left.Some? ==>
              entry == Some(if left.value.total <= above.value.total
                            then AddStep(g, above.value, South)
                            else AddStep(g, left.value, East))
  {
    var fromAbove: Option<Path> := None;
    var fromLeft: Option<Path> := None;
    if r != 0 && !Get(g, Pos(r - 1, c)).Building? {
      if above.Some? {
        AddStepConsistent(g, above.value, South);
        fromAbove := Some(AddStep(g, above.value, South));
      }
    }
    if c != 0 && !Get(g, Pos(r, c - 1)).Building? {
      if left.Some? {
        AddStepConsistent(g, left.value, East);
        fromLeft := Some(AddStep(g, left.value, East));
      }
    }
    var merged := Merge(fromAbove, fromLeft);
    if r == 0 && c == 0 {
      OriginEntry(g);
    } else {
      MergeStep(g, Pos(r, c), above, left, fromAbove, fromLeft);
    }
    entry := if merged.Some? then merged else current;
  }

  /** The best-cell check for one cell whose entry has just been set: record
      it as the best cell if its total is strictly above the best so far. */
  method TrackBest(g: Grid, table: seq<seq<Option<Path>>>, r: nat, c: nat, most: nat, bestRow: nat, bestCol: nat)
    returns (most': nat, bestRow': nat, bestCol': nat)
    requires r < g.rows && c < g.columns && Shaped(g, table)
    requires Tracked(g, table, r, c, most, bestRow, bestCol)
    ensures Tracked(g, table, r, c + 1, most', bestRow', bestCol')
    ensures most <= most'
  {
    most', bestRow', bestCol' := most, bestRow, bestCol;
    if table[r][c].Some? && table[r][c].value.total > most {
      most' := table[r][c].value.total;
      bestRow', bestCol' := r, c;
    }
  }

  /** The bookkeeping reads only processed cells and the best cell, so
      setting the entry of the next cell does not disturb it. */
  lemma TrackedFrame(g: Grid, table: seq<seq<Option<Path>>>, next: seq<seq<Option<Path>>>, r: nat, c: nat,
                     most: nat, bestRow: nat, bestCol: nat)
    requires Shaped(g, table) && Shaped(g, next)
    requires Tracked(g, table, r, c, most, bestRow, bestCol)
    requires forall i, j :: 0 <= i < g.rows && 0 <= j < g.columns && Pos(i, j) != Pos(r, c) ==>
               next[i][j] == table[i][j]
    ensures Tracked(g, next, r, c, most, bestRow, bestCol)
  {
  }

  /** A fully processed row r is the same region as "before row r + 1". */
  lemma RowDone(g: Grid, table: seq<seq<Option<Path>>>, r: nat, most: nat, bestRow: nat, bestCol: nat)
    requires Filled(g, table, r, g.columns) && Tracked(g, table, r, g.columns, most, bestRow, bestCol)
    ensures Filled(g, table, r + 1, 0) && Tracked(g, table, r + 1, 0, most, bestRow, bestCol)
  {
  }

  /** One pass of the inner loop: process row r, column by column. */
  method FillRow(g: Grid, table: seq<seq<Option<Path>>>, r: nat, most: nat, bestRow: nat, bestCol: nat)
    returns (table': seq<seq<Option<Path>>>, most': nat, bestRow': nat, bestCol': nat)
    requires r < g.rows
    requires Filled(g, table, r, 0) && Tracked(g, table, r, 0, most, bestRow, bestCol)
    requires Ties(g, table, r, 0)
    ensures Filled(g, table', r + 1, 0) && Tracked(g, table', r + 1, 0, most', bestRow', bestCol')
    ensures Ties(g, table', r + 1, 0)
  {
    table', most', bestRow', bestCol' := table, most, bestRow, bestCol;
    var c := 0;
    while c < g.columns
      invariant c <= g.columns
      invariant Filled(g, table', r, c)
      invariant Tracked(g, table', r, c, most', bestRow', bestCol')
      invariant Ties(g, table', r, c)
    {
      var next := ProcessCell(g, table', r, c);
      TrackedFrame(g, table', next, r, c, most', bestRow', bestCol');
      table' := next;
      most', bestRow', bestCol' := TrackBest(g, table', r, c, most', bestRow', bestCol');
      c := c + 1;
    }
    RowDone(g, table', r, most', bestRow', bestCol');
    TiesRowDone(g, table', r);
  }

  /** What a fully processed table says about the grid. */
  lemma Completed(g: Grid, table: seq<seq<Option<Path>>>, most: nat, bestRow: nat, bestCol: nat)
    requires g.rows > 0 && g.columns > 0
    requires Filled(g, table, g.rows, 0) && Tracked(g, table, g.rows, 0, most, bestRow, bestCol)
    ensures forall i, j :: 0 <= i < g.rows && 0 <= j < g.columns ==> BestEntry(g, Pos(i, j), table[i][j])
    ensures forall i, j :: 0 <= i < g.rows && 0 <= j < g.columns ==>
              (table[i][j].Some? <==> Reachable(g, Pos(i, j)))
    ensures forall i, j :: 0 <= i < g.rows && 0 <= j < g.columns && table[i][j].Some? ==>
              |table[i][j].value.steps| == i + j && table[i][j].value.total <= most
    ensures table[bestRow][bestCol].Some? ==> table[bestRow][bestCol].value.total == most
    ensures table[bestRow][bestCol].Some? <==> IsOpen(g, Pos(0, 0))
  {
    forall i, j | 0 <= i < g.rows && 0 <= j < g.columns
      ensures BestEntry(g, Pos(i, j), table[i][j])
      ensures table[i][j].Some? <==> Reachable(g, Pos(i, j))
      ensures table[i][j].Some? ==> |table[i][j].value.steps| == i + j && table[i][j].value.total <= most
    {
      assert Before(i, j, g.rows, 0);
      assert BestEntry(g, Pos(i, j), table[i][j]);
      if table[i][j].Some? {
        assert RouteTo(g, table[i][j].value.steps, Pos(i, j));
      }
    }
    if most == 0 && IsOpen(g, Pos(0, 0)) {
      assert RouteTo(g, [], Pos(0, 0));
    }
  }

  /** The table and best-cell pass of crane_unloading_dyn_prog. Every entry
      is right for its cell, and (bestRow, bestCol) is the first cell in
      row-major order whose entry scores `most`, the greatest entry total, or
      the origin when no entry scores above zero. The entry there is present
      exactly when the origin is open: on a grid whose origin is a building
      the final assertion fails. Where both neighbours have entries, a cell
      extends the one above unless the one to the left scores strictly more. */
  method Fill(g: Grid) returns (table: seq<seq<Option<Path>>>, bestRow: nat, bestCol: nat, most: nat)
    requires g.rows > 0 && g.columns > 0
    ensures Shaped(g, table)
    ensures forall i, j :: 0 <= i < g.rows && 0 <= j < g.columns ==> BestEntry(g, Pos(i, j), table[i][j])
    ensures forall i, j :: 0 <= i < g.rows && 0 <= j < g.columns ==>
              (table[i][j].Some? <==> Reachable(g, Pos(i, j)))
    ensures forall i, j :: 0 <= i < g.rows && 0 <= j < g.columns && Get(g, Pos(i, j)).Building? ==>
              table[i][j].None?
    ensures forall i, j :: 0 <= i < g.rows && 0 <= j < g.columns && table[i][j].Some? ==>
              |table[i][j].value.steps| == i + j && table[i][j].value.total <= most
    ensures bestRow < g.rows && bestCol < g.columns
    ensures table[bestRow][bestCol].Some? ==> table[bestRow][bestCol].value.total == most
    ensures forall i, j :: 0 <= i < g.rows && 0 <= j < g.columns && Before(i, j, bestRow, bestCol) ==>
              table[i][j].None? || table[i][j].value.total < most
    ensures most == 0 ==> bestRow == 0 && bestCol == 0
    ensures table[bestRow][bestCol].Some? <==> IsOpen(g, Pos(0, 0))
    ensures forall i, j :: 0 <= i < g.rows && 0 <= j < g.columns ==> BuiltFrom(g, table, i, j)
  {
    table := seq(g.rows, i => seq(g.columns, j => if i == 0 && j == 0 then Some(Start(g)) else None));
    most, bestRow, bestCol := 0, 0, 0;
    var r := 0;
    while r < g.rows
      invariant r <= g.rows
      invariant Filled(g, table, r, 0)
      invariant Tracked(g, table, r, 0, most, bestRow, bestCol)
      invariant Ties(g, table, r, 0)
    {
      table, most, bestRow, bestCol := FillRow(g, table, r, most, bestRow, bestCol);
      r := r + 1;
    }
    Completed(g, table, most, bestRow, bestCol);
    forall i, j | 0 <= i < g.rows && 0 <= j < g.columns
      ensures BuiltFrom(g, table, i, j)
    {
      assert Before(i, j, g.rows, 0);
    }
  }

  /** crane_unloading_dyn_prog on a grid whose origin is open: the stored
      path of the best cell, which scores at least as much as every path.
      The ghost `table` is the filled table the path is read from, which
      shows how each entry was built from its neighbours. */
  method Solve(g: Grid) returns (p: Path, ghost table: seq<seq<Option<Path>>>)
    requires g.rows > 0 && g.columns > 0
    requires IsOpen(g, Pos(0, 0))
    ensures Consistent(g, p) && Route(g, p.steps)
    ensures Shaped(g, table) && p.at.row < g.rows && p.at.col < g.columns
    ensures table[p.at.row][p.at.col] == Some(p)
    ensures forall i, j :: 0 <= i < g.rows && 0 <= j < g.columns ==> BestEntry(g, Pos(i, j), table[i][j])
    ensures forall i, j :: 0 <= i < g.rows && 0 <= j < g.columns ==> BuiltFrom(g, table, i, j)
    ensures forall s :: ValidSteps(g, s) ==> Score(g, s) <= p.total
    ensures forall s :: ValidSteps(g, s) && Before(EndOf(s).row, EndOf(s).col, p.at.row, p.at.col) ==>
              Score(g, s) < p.total
  {
    var filled: seq<seq<Option<Path>>>, bestRow: nat, bestCol: nat, most: nat := Fill(g);
    table := filled;
    p := filled[bestRow][bestCol].value;
    assert p.at == Pos(bestRow, bestCol) && p.total == most;
    forall s | ValidSteps(g, s)
      ensures Score(g, s) <= p.total
      ensures Before(EndOf(s).row, EndOf(s).col, p.at.row, p.at.col) ==> Score(g, s) < p.total
    {
      ValidLength(g, s);
      var e := EndOf(s);
      assert RouteTo(g, s, e);
      assert filled[e.row][e.col].Some?;
      assert Score(g, s) <= filled[e.row][e.col].value.total <= most;
    }
  }
}

=== FILE: examples_grids.dfy ===
/** Small grids on which the solvers' results are pinned down exactly. */
module Examples {
  import opened Grids
  import opened Paths
  import Exhaustive
  import DynProg

  /** 2x2, north-east cell a building: the only way on is SOUTH then EAST. */
  function DetourGrid(): Grid {
    Layout(2, 2, [[Open(1), Building], [Open(1), Open(1)]])
  }

  lemma DetourPaths(s: seq<Direction>)
    requires ValidSteps(DetourGrid(), s)
    ensures Score(DetourGrid(), s) <= 3
    ensures Score(DetourGrid(), s) == 3 ==> s == [South, East]
  {
  }

  /** On the detour grid, a valid path scoring at least every valid path is
      SOUTH, EAST. */
  lemma DetourOptimum(p: Path)
    requires Consistent(DetourGrid(), p)
    requires forall s :: ValidSteps(DetourGrid(), s) ==> Score(DetourGrid(), s) <= p.total
    ensures p.total == 3 && p.steps == [South, East]
  {
    assert Init([South, East]) == [South];
    assert ValidSteps(DetourGrid(), [South, East]) && Score(DetourGrid(), [South, East]) == 3;
    DetourPaths(p.steps);
  }

  /** Both solvers take the detour and collect 3 cranes. */
  method Detour() returns (e: Path, d: Path)
    ensures e.total == 3 && e.steps == [South, East]
    ensures d.total == 3 && d.steps == [South, East]
  {
    var g := DetourGrid();
    e := Exhaustive.Solve(g);
    DetourOptimum(e);
    ghost var table;
    d, table := DynProg.Solve(g);
    DetourOptimum(d);
  }

  /** 2x2, south-east corner a building, 5 cranes north-east: the best path
      ends inside the grid, not at the corner. */
  function CornerGrid(): Grid {
    Layout(2, 2, [[Open(1), Open(5)], [Open(1), Building]])
  }

  lemma CornerPaths(s: seq<Direction>)
    requires ValidSteps(CornerGrid(), s)
    ensures Score(CornerGrid(), s) <= 6
    ensures Score(CornerGrid(), s) == 6 ==> s == [East]
  {
  }

  /** On the corner grid, a valid path scoring at least every valid path is
      the single move EAST. */
  lemma CornerOptimum(p: Path)
    requires Consistent(CornerGrid(), p)
    requires forall s :: ValidSteps(CornerGrid(), s) ==> Score(CornerGrid(), s) <= p.total
    ensures p.total == 6 && p.steps == [East]
  {
    assert ValidSteps(CornerGrid(), [East]) && Score(CornerGrid(), [East]) == 6;
    CornerPaths(p.steps);
  }

  /** Both solvers stop after one EAST move with 6 cranes. */
  method BestCellNotCorner() returns (e: Path, d: Path)
    ensures e.total == 6 && e.steps == [East]
    ensures d.total == 6 && d.steps == [East]
  {
    var g := CornerGrid();
    e := Exhaustive.Solve(g);
    CornerOptimum(e);
    ghost var table;
    d, table := DynProg.Solve(g);
    CornerOptimum(d);
  }

  /** Every open cell of `g` holds exactly one crane. */
  ghost predicate UnitCranes(g: Grid) {
    forall p :: IsOpen(g, p) ==> Cranes(g, p) == 1
  }

  /** On a grid with one crane on every open cell, including the origin, a
      valid path scores one more than its length. */
  lemma {:induction false} UnitScore(g: Grid, s: seq<Direction>)
    requires UnitCranes(g) && IsOpen(g, Pos(0, 0)) && ValidSteps(g, s)
    ensures Score(g, s) == |s| + 1
  {
    if s != [] {
      UnitScore(g, Init(s));
    }
  }

  /** A right table entry for (0, 1) holds the single move EAST, and one for
      (1, 0) the single move SOUTH; either scores the origin's cranes plus
      those of the cell entered. */
  lemma FirstMove(g: Grid, p: Path, pos: Pos)
    requires pos == Pos(0, 1) || pos == Pos(1, 0)
    requires DynProg.BestEntry(g, pos, DynProg.Some(p))
    ensures p.steps == (if pos == Pos(0, 1) then [East] else [South])
    ensures p.total == Cranes(g, Pos(0, 0)) + Cranes(g, pos)
  {
    assert p.steps == [p.steps[0]] && Init(p.steps) == [];
    assert Score(g, p.steps) == Score(g, []) + Cranes(g, pos);
  }

  /** 2x2 with one crane on every cell: EAST, SOUTH and SOUTH, EAST both
      collect 3 cranes. */
  function TieGrid(): Grid {
    Layout(2, 2, [[Open(1), Open(1)], [Open(1), Open(1)]])
  }

  lemma TieUnit()
    ensures UnitCranes(TieGrid()) && IsOpen(TieGrid(), Pos(0, 0))
  {
    forall p | IsOpen(TieGrid(), p)
      ensures Cranes(TieGrid(), p) == 1
    {
    }
  }

  /** The valid paths of one or two moves on the tie grid. */
  lemma TiePaths(s: seq<Direction>)
    requires ValidSteps(TieGrid(), s)
    ensures |s| <= 2
    ensures |s| == 1 ==> s == [East] || s == [South]
    ensures |s| == 2 ==> s == [East, South] || s == [South, East]
  {
    ValidLength(TieGrid(), s);
    if |s| == 2 {
      assert Init(s) == [s[0]];
      assert EndOf(s) == Next(EndOf([s[0]]), s[1]);
    }
  }

  /** In search order EAST, SOUTH comes before SOUTH, EAST: both have one EAST
      move, and EAST sorts first. */
  lemma EastSouthFirst()
    ensures Exhaustive.Earlier([East, South], [South, East])
  {
    assert Exhaustive.CountEast([East, South]) == 1 == Exhaustive.CountEast([South, East]);
  }

  /** The exhaustive search meets EAST, SOUTH before SOUTH, EAST in the split
      with one EAST move, and the later replay only ties, so the first stays. */
  lemma TieExhaustive(best: Path)
    requires Consistent(TieGrid(), best) && 3 <= best.total
    requires exists a :: Exhaustive.FirstBest(TieGrid(), 2, a, best)
    ensures best.steps == [East, South]
  {
    var g := TieGrid();
    var a :| Exhaustive.FirstBest(g, 2, a, best);
    TieUnit();
    UnitScore(g, best.steps);
    TiePaths(best.steps);
    assert |best.steps| == 2 && best.total == 3;
    Exhaustive.ReplayTakesPrefix(g, Start(g), a);
    assert best.steps == a;
    if a == [South, East] {
      TieFirstScores();
      EastSouthFirst();
      assert false;
    }
  }

  /** Replaying EAST, SOUTH on the tie grid collects all 3 cranes. */
  lemma TieFirstScores()
    ensures 3 <= Exhaustive.Replay(TieGrid(), Start(TieGrid()), [East, South]).total
  {
    var g := TieGrid();
    var first := [East, South];
    assert Init(first) == [East] && ValidSteps(g, first);
    TieUnit();
    UnitScore(g, first);
    assert Start(g).steps + first == first && first + [] == first;
    Exhaustive.ReplayCovers(g, Start(g), first, []);
  }

  /** The dynamic program fills (0, 1) with EAST and (1, 0) with SOUTH, both
      scoring 2; at (1, 1) the tie goes to the entry from above. */
  lemma TieDynamic(p: Path, table: seq<seq<DynProg.Option<Path>>>)
    requires Consistent(TieGrid(), p) && 3 <= p.total
    requires DynProg.Shaped(TieGrid(), table) && p.at.row < 2 && p.at.col < 2
    requires table[p.at.row][p.at.col] == DynProg.Some(p)
    requires DynProg.BestEntry(TieGrid(), Pos(0, 1), table[0][1])
    requires DynProg.BestEntry(TieGrid(), Pos(1, 0), table[1][0])
    requires DynProg.BuiltFrom(TieGrid(), table, 1, 1)
    ensures p.steps == [East, South]
  {
    var g := TieGrid();
    TieUnit();
    UnitScore(g, p.steps);
    TiePaths(p.steps);
    assert p.at == Pos(1, 1);
    assert DynProg.RouteTo(g, [East], Pos(0, 1));
    assert DynProg.RouteTo(g, [South], Pos(1, 0));
    FirstMove(g, table[0][1].value, Pos(0, 1));
    FirstMove(g, table[1][0].value, Pos(1, 0));
  }

  /** On the all-ones 2x2 grid, EAST, SOUTH and SOUTH, EAST tie at 3 cranes.
      The exhaustive search keeps the first it meets, EAST, SOUTH; the
      dynamic program at (1, 1) keeps the path from above, which came EAST
      to (0, 1): both return EAST, SOUTH. */
  method TieBreak() returns (e: Path, d: Path)
    ensures e.steps == [East, South] && e.total == 3
    ensures d.steps == [East, South] && d.total == 3
  {
    var g := TieGrid();
    TieUnit();
    assert Init([East, South]) == [East] && ValidSteps(g, [East, South]);
    UnitScore(g, [East, South]);
    e := Exhaustive.Solve(g);
    assert 3 <= e.total && e != Start(g);
    TieExhaustive(e);
    UnitScore(g, e.steps);
    ghost var table;
    d, table := DynProg.Solve(g);
    assert 3 <= d.total;
    TieDynamic(d, table);
    UnitScore(g, d.steps);
  }

  /** 3x2 with one crane on every open cell and a building in the south-west
      corner: EAST, SOUTH, SOUTH and SOUTH, EAST, SOUTH both collect 4 cranes,
      and the last move into (2, 1) can only come from above. */
  function LedgeGrid(): Grid {
    Layout(3, 2, [[Open(1), Open(1)], [Open(1), Open(1)], [Building, Open(1)]])
  }

  lemma LedgeUnit()
    ensures UnitCranes(LedgeGrid()) && IsOpen(LedgeGrid(), Pos(0, 0))
  {
    forall p | IsOpen(LedgeGrid(), p)
      ensures Cranes(LedgeGrid(), p) == 1
    {
    }
  }

  /** The valid paths of three moves on the ledge grid: both end at (2, 1),
      entered from above. */
  lemma LedgePaths(s: seq<Direction>)
    requires ValidSteps(LedgeGrid(), s) && |s| == 3
    ensures s == [East, South, South] || s == [South, East, South]
  {
    var g := LedgeGrid();
    ValidLength(g, s);
    assert EndOf(s) == Pos(2, 1);
    var t := Init(s);
    assert s == t + [s[2]] && t == [s[0], s[1]];
    assert Init(t) == [s[0]];
    assert EndOf(t) == Next(EndOf([s[0]]), s[1]);
  }

  /** Replaying EAST, SOUTH, SOUTH on the ledge grid collects all 4 cranes. */
  lemma LedgeFirstScores()
    ensures 4 <= Exhaustive.Replay(LedgeGrid(), Start(LedgeGrid()), [East, South, South]).total
  {
    var g := LedgeGrid();
    var first := [East, South, South];
    assert Init(first) == [East, South] && Init([East, South]) == [East];
    assert ValidSteps(g, first);
    LedgeUnit();
    UnitScore(g, first);
    assert Start(g).steps + first == first && first + [] == first;
    Exhaustive.ReplayCovers(g, Start(g), first, []);
  }

  /** In search order EAST, SOUTH, SOUTH comes before SOUTH, EAST, SOUTH. */
  lemma LedgeOrder()
    ensures Exhaustive.Earlier([East, South, South], [South, East, South])
  {
    assert Exhaustive.CountEast([East, South, South]) == 1 == Exhaustive.CountEast([South, East, South]);
  }

  /** The exhaustive search replays EAST, SOUTH, SOUTH before SOUTH, EAST,
      SOUTH (one EAST move each, EAST sorts first), and the later one only
      ties, so the first stays. */
  lemma LedgeExhaustive(best: Path)
    requires Consistent(LedgeGrid(), best) && 4 <= best.total
    requires exists a :: Exhaustive.FirstBest(LedgeGrid(), 3, a, best)
    ensures best.steps == [East, South, South]
  {
    var g := LedgeGrid();
    var a :| Exhaustive.FirstBest(g, 3, a, best);
    LedgeUnit();
    UnitScore(g, best.steps);
    ValidLength(g, best.steps);
    assert |best.steps| == 3 && best.total == 4;
    LedgePaths(best.steps);
    Exhaustive.ReplayTakesPrefix(g, Start(g), a);
    assert best.steps == a;
    if a == [South, East, South] {
      LedgeFirstScores();
      LedgeOrder();
      assert false;
    }
  }

  /** The dynamic program fills (0, 1) with EAST and (1, 0) with SOUTH, both
      scoring 2, so the tie-break at (1, 1) gives EAST, SOUTH. */
  lemma LedgeMiddle(table: seq<seq<DynProg.Option<Path>>>)
    requires DynProg.Shaped(LedgeGrid(), table)
    requires DynProg.BestEntry(LedgeGrid(), Pos(0, 1), table[0][1])
    requires DynProg.BestEntry(LedgeGrid(), Pos(1, 0), table[1][0])
    requires DynProg.BuiltFrom(LedgeGrid(), table, 1, 1)
    ensures table[1][1].Some? && table[1][1].value.steps == [East, South]
  {
    var g := LedgeGrid();
    assert DynProg.RouteTo(g, [East], Pos(0, 1));
    assert DynProg.RouteTo(g, [South], Pos(1, 0));
    FirstMove(g, table[0][1].value, Pos(0, 1));
    FirstMove(g, table[1][0].value, Pos(1, 0));
  }

  /** (2, 0) is a building with no entry, so the best path, which ends at
      (2, 1), extends the entry above by SOUTH. */
  lemma LedgeDynamic(p: Path, table: seq<seq<DynProg.Option<Path>>>)
    requires Consistent(LedgeGrid(), p) && 4 <= p.total
    requires DynProg.Shaped(LedgeGrid(), table) && p.at.row < 3 && p.at.col < 2
    requires table[p.at.row][p.at.col] == DynProg.Some(p)
    requires table[1][1].Some? && table[1][1].value.steps == [East, South]
    requires DynProg.BestEntry(LedgeGrid(), Pos(2, 0), table[2][0])
    requires DynProg.BuiltFrom(LedgeGrid(), table, 2, 1)
    ensures p.steps == [East, South, South]
  {
    var g := LedgeGrid();
    LedgeUnit();
    UnitScore(g, p.steps);
    ValidLength(g, p.steps);
    assert p.at == Pos(2, 1);
    assert table[2][0].None?;
  }

  /** On the ledge grid both solvers return EAST, SOUTH, SOUTH with 4 cranes:
      the exhaustive search meets it first, and the dynamic program carries
      the tie-break at (1, 1) down the only way into (2, 1). */
  method Ledge() returns (e: Path, d: Path)
    ensures e.steps == [East, South, South] && e.total == 4
    ensures d.steps == [East, South, South] && d.total == 4
  {
    var g := LedgeGrid();
    LedgeUnit();
    assert Init([East, South, South]) == [East, South] && Init([East, South]) == [East];
    assert ValidSteps(g, [East, South, South]);
    UnitScore(g, [East, South, South]);
    e := Exhaustive.Solve(g);
    assert 4 <= e.total && e != Start(g);
    LedgeExhaustive(e);
    UnitScore(g, e.steps);
    ghost var table;
    d, table := DynProg.Solve(g);
    assert 4 <= d.total;
    LedgeMiddle(table);
    LedgeDynamic(d, table);
    UnitScore(g, d.steps);
  }

  /** A single open cell with k cranes: both solvers return the empty path
      scoring k. */
  method SingleCell(k: nat) returns (e: Path, d: Path)
    ensures e.steps == [] && e.total == k
    ensures d.steps == [] && d.total == k
  {
    var g: Grid := Layout(1, 1, [[Open(k)]]);
    e := Exhaustive.Solve(g);
    ghost var table;
    d, table := DynProg.Solve(g);
    ValidLength(g, e.steps);
    ValidLength(g, d.steps);
    assert ValidSteps(g, []);
  }

  /** A 1x2 grid whose origin is a building: the step into the open cell
      is valid, because a step checks only the cell it enters, so the
      exhaustive solver collects that cell's cranes when there are any. With
      none, the replay only ties the fresh path, which therefore stays. */
  method BuildingOrigin(k: nat) returns (e: Path)
    ensures 0 < k ==> e.total == k && e.steps == [East]
    ensures k == 0 ==> e.total == 0 && e.steps == []
  {
    var g: Grid := Layout(1, 2, [[Building, Open(k)]]);
    e := Exhaustive.Solve(g);
    assert Init([East]) == [];
    assert ValidSteps(g, [East]) && Score(g, [East]) == k;
    ValidLength(g, e.steps);
    if |e.steps| == 1 {
      assert e.steps == [e.steps[0]];
    }
    if k == 0 {
      NoReplayBeatsStart(g);
    }
  }

  /** On a 1x2 grid without cranes, no replay of one move scores above the
      fresh path. */
  lemma NoReplayBeatsStart(g: Grid)
    requires g.rows == 1 && g.columns == 2
    requires forall j :: 0 <= j < 2 ==> Cranes(g, Pos(0, j)) == 0
    ensures forall a :: |a| == MaxSteps(g) ==> Exhaustive.Replay(g, Start(g), a).total <= Start(g).total
  {
    forall a | |a| == MaxSteps(g)
      ensures Exhaustive.Replay(g, Start(g), a).total <= Start(g).total
    {
      var r := Exhaustive.Replay(g, Start(g), a);
      Exhaustive.ReplayConsistent(g, Start(g), a);
      ValidLength(g, r.steps);
      if |r.steps| == 1 {
        assert r.steps == [r.steps[0]] && Init(r.steps) == [];
      }
    }
  }

  /** A 1x2 grid of open cells without cranes: moving EAST only ties the
      fresh path, and both solvers keep the earlier candidate on a tie, so
      both return the empty path. */
  method ZeroCranes() returns (e: Path, d: Path)
    ensures e.steps == [] && e.total == 0
    ensures d.steps == [] && d.total == 0
  {
    var g: Grid := Layout(1, 2, [[Open(0), Open(0)]]);
    e := Exhaustive.Solve(g);
    NoReplayBeatsStart(g);
    ghost var table;
    d, table := DynProg.Solve(g);
    assert ValidSteps(g, []) && Score(g, []) == 0;
    ValidLength(g, d.steps);
  }
}

=== FILE: exhaustive.dfy ===
/** The brute-force reference solver: for every split of the longest possible
    path into EAST and SOUTH moves, replay every arrangement of that split from
    the origin, stopping at the first step that is not valid, and keep the
    best-scoring replay. */
module Exhaustive {
  import opened Grids
  import opened Paths

  function CountEast(a: seq<Direction>): (k: nat)
    ensures k <= |a|
  {
    if a == [] then 0 else (if a[0] == East then 1 else 0) + CountEast(a[1..])
  }

  function Prepend(d: Direction, xs: seq<seq<Direction>>): (ys: seq<seq<Direction>>)
    ensures |ys| == |xs|
    ensures forall i :: 0 <= i < |xs| ==> ys[i] == [d] + xs[i]
  {
    var ys := seq(|xs|, i requires 0 <= i < |xs| => [d] + xs[i]);
    assert forall i :: 0 <= i < |xs| ==> ys[i] == [d] + xs[i];
    ys
  }

  /** A non-empty sequence is its first move followed by the rest, and its
      EAST count splits the same way. */
  lemma Uncons(a: seq<Direction>)
    requires |a| > 0
    ensures a == [a[0]] + a[1..]
    ensures CountEast(a) == (if a[0] == East then 1 else 0) + CountEast(a[1..])
    ensures CountEast(a[1..]) <= |a| - 1
  {
  }

  /** The arrangements of `k` EAST and `n - k` SOUTH moves, listed in
      lexicographic order with EAST first. They stand in for the sequences
      the do-while loop over next-permutation visits, starting from all
      EASTs followed by all SOUTHs. ArrangementsExactly says which sequences
      are listed and ArrangementsSorted in which order. */
  function Arrangements(n: nat, k: nat): seq<seq<Direction>>
    requires k <= n
  {
    if n == 0 then [[]]
    else if k == 0 then Prepend(South, Arrangements(n - 1, k))
    else if k == n then Prepend(East, Arrangements(n - 1, k - 1))
    else Prepend(East, Arrangements(n - 1, k - 1)) + Prepend(South, Arrangements(n - 1, k))
  }

  /** Where a member of Prepend(d, xs) comes from. */
  lemma PrependIndex(d: Direction, xs: seq<seq<Direction>>, a: seq<Direction>) returns (i: nat)
    requires a in Prepend(d, xs)
    ensures i < |xs| && a == [d] + xs[i]
  {
    i :| 0 <= i < |xs| && Prepend(d, xs)[i] == a;
  }

  /** The EAST count of a move in front of a sequence. */
  lemma ConsCount(d: Direction, x: seq<Direction>)
    ensures CountEast([d] + x) == (if d == East then 1 else 0) + CountEast(x)
  {
    assert ([d] + x)[1..] == x;
  }

  /** A listed arrangement of n > 0 moves is EAST or SOUTH in front of a
      listed arrangement of n - 1 moves. */
  lemma ArrangementsOrigin(n: nat, k: nat, a: seq<Direction>)
    requires 0 < n && k <= n && a in Arrangements(n, k)
    ensures || (0 < k && a in Prepend(East, Arrangements(n - 1, k - 1)))
            || (k < n && a in Prepend(South, Arrangements(n - 1, k)))
  {
  }

  /** Every listed arrangement has n moves, k of them EAST. */
  lemma {:induction false} ArrangementsShape(n: nat, k: nat, a: seq<Direction>)
    requires k <= n && a in Arrangements(n, k)
    ensures |a| == n && CountEast(a) == k
  {
    if n > 0 {
      ArrangementsOrigin(n, k, a);
      var east := 0 < k && a in Prepend(East, Arrangements(n - 1, k - 1));
      var rest := if east then k - 1 else k;
      var d := if east then East else South;
      var i := PrependIndex(d, Arrangements(n - 1, rest), a);
      ArrangementsShape(n - 1, rest, Arrangements(n - 1, rest)[i]);
      ConsCount(d, Arrangements(n - 1, rest)[i]);
    }
  }

  /** One step of the enumeration: an arrangement of n - 1 moves, extended at
      the front by EAST or SOUTH, is an arrangement of n moves. */
  lemma ArrangementsExtend(n: nat, k: nat, d: Direction, x: seq<Direction>)
    requires 0 < n
    requires d == East ==> 0 < k <= n && x in Arrangements(n - 1, k - 1)
    requires d == South ==> k < n && x in Arrangements(n - 1, k)
    ensures [d] + x in Arrangements(n, k)
  {
    var xs := if d == East then Arrangements(n - 1, k - 1) else Arrangements(n - 1, k);
    var i :| 0 <= i < |xs| && xs[i] == x;
    assert Prepend(d, xs)[i] == [d] + x;
  }

  /** Every length-n move sequence with k EASTs is among Arrangements(n, k). */
  lemma {:induction false} ArrangementsComplete(n: nat, k: nat, a: seq<Direction>)
    requires |a| == n && CountEast(a) == k
    ensures a in Arrangements(n, k)
  {
    if n > 0 {
      var d, rest := a[0], a[1..];
      Uncons(a);
      if d == East {
        assert rest in Arrangements(n - 1, k - 1) by {
          ArrangementsComplete(n - 1, k - 1, rest);
        }
        ArrangementsExtend(n, k, East, rest);
      } else {
        assert rest in Arrangements(n - 1, k) by {
          ArrangementsComplete(n - 1, k, rest);
        }
        ArrangementsExtend(n, k, South, rest);
      }
    }
  }

  /** Arrangements(n, k) holds exactly the length-n move sequences with k EASTs. */
  lemma ArrangementsExactly(n: nat, k: nat, a: seq<Direction>)
    requires k <= n
    ensures a in Arrangements(n, k) <==> |a| == n && CountEast(a) == k
  {
    if |a| == n && CountEast(a) == k {
      ArrangementsComplete(n, k, a);
    }
    if a in Arrangements(n, k) {
      ArrangementsShape(n, k, a);
    }
  }

  /** Strict lexicographic order on move sequences of equal length, EAST
      before SOUTH: the order in which next-permutation visits them. */
  predicate LexLess(a: seq<Direction>, b: seq<Direction>)
    decreases |a|
  {
    |a| > 0 && |b| > 0
    && ((a[0] == East && b[0] == South) || (a[0] == b[0] && LexLess(a[1..], b[1..])))
  }

  lemma {:induction false} LexLessIrreflexive(a: seq<Direction>)
    ensures !LexLess(a, a)
    decreases |a|
  {
    if |a| > 0 {
      LexLessIrreflexive(a[1..]);
    }
  }

  lemma {:induction false} LexLessAsymmetric(a: seq<Direction>, b: seq<Direction>)
    requires LexLess(a, b)
    ensures !LexLess(b, a)
    decreases |a|
  {
    if a[0] == b[0] {
      LexLessAsymmetric(a[1..], b[1..]);
    }
  }

  /** Every entry is lexicographically below every later one. */
  predicate Increasing(xs: seq<seq<Direction>>) {
    forall i, j :: 0 <= i < j < |xs| ==> LexLess(xs[i], xs[j])
  }

  /** A common first move keeps the order of the rest. */
  lemma ConsOrder(d: Direction, x: seq<Direction>, y: seq<Direction>)
    requires LexLess(x, y)
    ensures LexLess([d] + x, [d] + y)
  {
    assert ([d] + x)[1..] == x && ([d] + y)[1..] == y;
  }

  /** Prepending a move to every entry of an increasing list keeps it
      increasing. */
  lemma PrependOrder(d: Direction, xs: seq<seq<Direction>>)
    requires Increasing(xs)
    ensures Increasing(Prepend(d, xs))
  {
    forall i, j | 0 <= i < j < |xs|
      ensures LexLess(Prepend(d, xs)[i], Prepend(d, xs)[j])
    {
      ConsOrder(d, xs[i], xs[j]);
    }
  }

  /** An increasing list of EAST-first sequences followed by an increasing
      list of SOUTH-first ones is increasing. */
  lemma JoinOrder(front: seq<seq<Direction>>, back: seq<seq<Direction>>)
    requires Increasing(front) && Increasing(back)
    requires forall i :: 0 <= i < |front| ==> |front[i]| > 0 && front[i][0] == East
    requires forall i :: 0 <= i < |back| ==> |back[i]| > 0 && back[i][0] == South
    ensures Increasing(front + back)
  {
    var all := front + back;
    forall i, j | 0 <= i < j < |all|
      ensures LexLess(all[i], all[j])
    {
      if j < |front| {
        assert all[i] == front[i] && all[j] == front[j];
      } else if |front| <= i {
        assert all[i] == back[i - |front|] && all[j] == back[j - |front|];
      }
    }
  }

  /** Every entry of Prepend(d, xs) starts with d. */
  lemma PrependHeads(d: Direction, xs: seq<seq<Direction>>)
    ensures forall i :: 0 <= i < |xs| ==> |Prepend(d, xs)[i]| > 0 && Prepend(d, xs)[i][0] == d
  {
  }

  /** The EAST-first arrangements followed by the SOUTH-first ones, each
      part increasing, make an increasing list. */
  lemma SplitOrder(left: seq<seq<Direction>>, right: seq<seq<Direction>>)
    requires Increasing(left) && Increasing(right)
    ensures Increasing(Prepend(East, left) + Prepend(South, right))
  {
    PrependOrder(East, left);
    PrependHeads(East, left);
    PrependOrder(South, right);
    PrependHeads(South, right);
    JoinOrder(Prepend(East, left), Prepend(South, right));
  }

  /** With both moves available, the EAST-first arrangements come first. */
  lemma ArrangementsSplit(n: nat, k: nat)
    requires 0 < k < n
    ensures Arrangements(n, k) == Prepend(East, Arrangements(n - 1, k - 1)) + Prepend(South, Arrangements(n - 1, k))
  {
  }

  /** Each split's arrangements come in strictly increasing lexicographic
      order: next-permutation order. */
  lemma {:induction false} ArrangementsSorted(n: nat, k: nat)
    requires k <= n
    ensures Increasing(Arrangements(n, k))
  {
    if n == 0 {
    } else if k == 0 {
      ArrangementsSorted(n - 1, k);
      PrependOrder(South, Arrangements(n - 1, k));
    } else if k == n {
      ArrangementsSorted(n - 1, k - 1);
      PrependOrder(East, Arrangements(n - 1, k - 1));
    } else {
      ArrangementsSorted(n - 1, k - 1);
      assert Increasing(Arrangements(n - 1, k - 1));
      ArrangementsSorted(n - 1, k);
      assert Increasing(Arrangements(n - 1, k));
      SplitOrder(Arrangements(n - 1, k - 1), Arrangements(n - 1, k));
      ArrangementsSplit(n, k);
    }
  }

  /** So no arrangement is listed twice. */
  lemma ArrangementsDistinct(n: nat, k: nat)
    requires k <= n
    ensures var all := Arrangements(n, k);
      forall i, j :: 0 <= i < j < |all| ==> all[i] != all[j]
  {
    var all := Arrangements(n, k);
    ArrangementsSorted(n, k);
    forall i, j | 0 <= i < j < |all|
      ensures all[i] != all[j]
    {
      LexLessIrreflexive(all[i]);
    }
  }

  /** In a split's list, a lexicographically smaller arrangement sits at a
      smaller index. */
  lemma ArrangementsIndex(n: nat, k: nat, i: nat, j: nat)
    requires k <= n && i < |Arrangements(n, k)| && j < |Arrangements(n, k)|
    requires LexLess(Arrangements(n, k)[i], Arrangements(n, k)[j])
    ensures i < j
  {
    var all := Arrangements(n, k);
    ArrangementsSorted(n, k);
    if j < i {
      assert LexLess(all[j], all[i]);
      LexLessAsymmetric(all[i], all[j]);
    } else if i == j {
      LexLessIrreflexive(all[i]);
    }
  }

  /** The order in which the search replays arrangements: splits with fewer
      EAST moves first, then lexicographically within a split. */
  predicate Earlier(b: seq<Direction>, a: seq<Direction>) {
    CountEast(b) < CountEast(a) || (CountEast(b) == CountEast(a) && LexLess(b, a))
  }

  /** Apply `dirs` to `p` in order while each step is valid; stop at the first
      step that is not. */
  function Replay(g: Grid, p: Path, dirs: seq<Direction>): (r: Path)
    ensures p.total <= r.total
    decreases |dirs|
  {
    if dirs == [] then p
    else if IsStepValid(g, p, dirs[0]) then
      Replay(g, AddStep(g, p, dirs[0]), dirs[1..])
    else p
  }

  /** Replaying from a consistent path gives a consistent path. */
  lemma {:induction false} ReplayConsistent(g: Grid, p: Path, dirs: seq<Direction>)
    requires Consistent(g, p)
    ensures Consistent(g, Replay(g, p, dirs))
    decreases |dirs|
  {
    if dirs != [] && IsStepValid(g, p, dirs[0]) {
      AddStepConsistent(g, p, dirs[0]);
      ReplayConsistent(g, AddStep(g, p, dirs[0]), dirs[1..]);
    }
  }

  /** A replay takes a prefix of `dirs`, and it stops short only at a step
      that is not valid. */
  lemma {:induction false} ReplayTakesPrefix(g: Grid, p: Path, dirs: seq<Direction>)
    ensures var r := Replay(g, p, dirs);
      && |p.steps| <= |r.steps| <= |p.steps| + |dirs|
      && r.steps == p.steps + dirs[..|r.steps| - |p.steps|]
      && (|r.steps| < |p.steps| + |dirs| ==> !IsStepValid(g, r, dirs[|r.steps| - |p.steps|]))
    decreases |dirs|
  {
    if dirs != [] && IsStepValid(g, p, dirs[0]) {
      var q := AddStep(g, p, dirs[0]);
      ReplayTakesPrefix(g, q, dirs[1..]);
      var r := Replay(g, q, dirs[1..]);
      assert dirs[..|r.steps| - |p.steps|] == [dirs[0]] + dirs[1..][..|r.steps| - |q.steps|];
    }
  }

  /** Replaying a valid path followed by anything collects at least that
      path's score: the valid moves are all taken, and further moves only add
      non-negative crane counts. */
  lemma {:induction false} ReplayCovers(g: Grid, p: Path, s: seq<Direction>, t: seq<Direction>)
    requires Consistent(g, p)
    requires ValidSteps(g, p.steps + s)
    ensures Score(g, p.steps + s) <= Replay(g, p, s + t).total
    decreases |s|
  {
    if s == [] {
      assert p.steps + s == p.steps;
      assert s + t == t;
    } else {
      var d := s[0];
      assert p.steps + s == (p.steps + [d]) + s[1..];
      ValidPrefix(g, p.steps + [d], s[1..]);
      assert Init(p.steps + [d]) == p.steps;
      AddStepConsistent(g, p, d);
      var q := AddStep(g, p, d);
      assert (s + t)[0] == d && (s + t)[1..] == s[1..] + t;
      ReplayCovers(g, q, s[1..], t);
    }
  }

  function Souths(n: nat): (a: seq<Direction>)
    ensures |a| == n
  {
    seq(n, _ => South)
  }

  /** The inner do-while loop of the exhaustive search: replay each of the
      given arrangements from a fresh path and keep `best` unless a replay
      scores strictly more. On a tie the earlier path stays, so the result is
      the first replay with the greatest total, or `best` when no replay beats
      it. */
  method KeepBest(g: Grid, arrangements: seq<seq<Direction>>, best: Path) returns (r: Path)
    ensures Consistent(g, best) ==> Consistent(g, r)
    ensures best.total <= r.total
    ensures forall j :: 0 <= j < |arrangements| ==> Replay(g, Start(g), arrangements[j]).total <= r.total
    ensures r == best || exists j :: 0 <= j < |arrangements| && r == Replay(g, Start(g), arrangements[j])
    ensures (forall j :: 0 <= j < |arrangements| ==> Replay(g, Start(g), arrangements[j]).total <= best.total) ==> r == best
    ensures r != best ==>
      exists j :: 0 <= j < |arrangements| && r == Replay(g, Start(g), arrangements[j]) && best.total < r.total
        && forall i :: 0 <= i < j ==> Replay(g, Start(g), arrangements[i]).total < r.total
  {
    var origin := Start(g);
    r := best;
    ghost var w: int := -1;
    var i := 0;
    while i < |arrangements|
      invariant i <= |arrangements|
      invariant Consistent(g, best) ==> Consistent(g, r)
      invariant best.total <= r.total
      invariant forall j :: 0 <= j < i ==> Replay(g, origin, arrangements[j]).total <= r.total
      invariant -1 <= w < i
      invariant w == -1 ==> r == best
      invariant 0 <= w ==> r == Replay(g, origin, arrangements[w]) && best.total < r.total
      invariant 0 <= w ==> forall j :: 0 <= j < w ==> Replay(g, origin, arrangements[j]).total < r.total
    {
      var current := Replay(g, origin, arrangements[i]);
      ReplayConsistent(g, origin, arrangements[i]);
      if current.total > r.total {
        r := current;
        w := i;
      }
      i := i + 1;
    }
  }

  /** `best` is the replay of `a`, an arrangement of n moves, and every
      arrangement replayed before `a` scores strictly less. */
  ghost predicate FirstBest(g: Grid, n: nat, a: seq<Direction>, best: Path) {
    && |a| == n && best == Replay(g, Start(g), a)
    && forall b :: |b| == n && Earlier(b, a) ==> Replay(g, Start(g), b).total < best.total
  }

  /** When split k replaces the best path, the new best is the first replay in
      search order to reach its total. */
  lemma NewBest(g: Grid, n: nat, k: nat, best: Path, next: Path, j: nat)
    requires k <= n && j < |Arrangements(n, k)|
    requires forall a :: |a| == n && CountEast(a) < k ==> Replay(g, Start(g), a).total <= best.total
    requires next == Replay(g, Start(g), Arrangements(n, k)[j]) && best.total < next.total
    requires forall i :: 0 <= i < j ==> Replay(g, Start(g), Arrangements(n, k)[i]).total < next.total
    ensures FirstBest(g, n, Arrangements(n, k)[j], next)
  {
    var all := Arrangements(n, k);
    var a := all[j];
    ArrangementsShape(n, k, a);
    forall b | |b| == n && Earlier(b, a)
      ensures Replay(g, Start(g), b).total < next.total
    {
      if CountEast(b) == k {
        ArrangementsComplete(n, k, b);
        var i :| 0 <= i < |all| && all[i] == b;
        ArrangementsIndex(n, k, i, j);
      }
    }
  }

  /** crane_unloading_exhaustive: the best replay over every arrangement of
      MaxSteps moves, keeping the first of equal-scoring replays. */
  method Solve(g: Grid) returns (best: Path)
    requires g.rows > 0 && g.columns > 0
    requires MaxSteps(g) < 64
    ensures Consistent(g, best)
    ensures forall s :: ValidSteps(g, s) ==> Score(g, s) <= best.total
    ensures forall a :: |a| == MaxSteps(g) ==> Replay(g, Start(g), a).total <= best.total
    ensures best == Start(g) || exists a :: |a| == MaxSteps(g) && best == Replay(g, Start(g), a)
    ensures best == Start(g) <==> forall a :: |a| == MaxSteps(g) ==> Replay(g, Start(g), a).total <= Start(g).total
    ensures best != Start(g) ==> exists a :: FirstBest(g, MaxSteps(g), a, best)
  {
    var maxSteps := MaxSteps(g);
    var origin := Start(g);
    best := origin;
    var steps := 0;
    while steps <= maxSteps
      invariant steps <= maxSteps + 1
      invariant Consistent(g, best)
      invariant forall a :: |a| == maxSteps && CountEast(a) < steps ==> Replay(g, origin, a).total <= best.total
      invariant best == origin || exists a :: FirstBest(g, maxSteps, a, best)
      invariant best == origin || origin.total < best.total
    {
      var directions := Arrangements(maxSteps, steps);
      var next := KeepBest(g, directions, best);
      if next != best {
        var j :| 0 <= j < |directions| && next == Replay(g, origin, directions[j]) && best.total < next.total
                 && forall i :: 0 <= i < j ==> Replay(g, origin, directions[i]).total < next.total;
        NewBest(g, maxSteps, steps, best, next, j);
      }
      forall a | |a| == maxSteps && CountEast(a) == steps
        ensures Replay(g, origin, a).total <= next.total
      {
        ArrangementsComplete(maxSteps, steps, a);
        var j :| 0 <= j < |directions| && directions[j] == a;
      }
      best := next;
      steps := steps + 1;
    }
    forall s | ValidSteps(g, s)
      ensures Score(g, s) <= best.total
    {
      ValidLength(g, s);
      var pad := Souths(maxSteps - |s|);
      assert origin.steps + s == s;
      ReplayCovers(g, origin, s, pad);
    }
  }
}

=== FILE: grids.dfy ===
/** The read-only harbour grid both solvers search: a rectangle of cells, each
    either a building or open ground holding some number of cranes. Only the
    interface the solvers use is modelled: the dimensions, cell lookup and the
    building test. */
module Grids {

  /** One cell of the grid. */
  datatype Cell = Building | Open(cranes: nat)

  /** A (row, column) coordinate; row grows to the SOUTH, column to the EAST. */
  datatype Pos = Pos(row: nat, col: nat)

  datatype Layout = Layout(rows: nat, columns: nat, cells: seq<seq<Cell>>)

  /** Every one of the `rows` rows holds exactly `columns` cells. */
  predicate Rectangular(l: Layout) {
    |l.cells| == l.rows && forall r :: 0 <= r < l.rows ==> |l.cells[r]| == l.columns
  }

  type Grid = l: Layout | Rectangular(l) witness Layout(0, 0, [])

  predicate InBounds(g: Grid, p: Pos) {
    p.row < g.rows && p.col < g.columns
  }

  function Get(g: Grid, p: Pos): Cell
    requires InBounds(g, p)
  {
    g.cells[p.row][p.col]
  }

  /** A position a path may occupy: inside the grid and not a building. */
  predicate IsOpen(g: Grid, p: Pos) {
    InBounds(g, p) && Get(g, p).Open?
  }

  /** What visiting `p` adds to a path's total; nothing for a building. */
  function Cranes(g: Grid, p: Pos): nat {
    if IsOpen(g, p) then Get(g, p).cranes else 0
  }
}

=== FILE: paths.dfy ===
/** Monotone paths from the north-west corner. A path is the sequence of its
    moves; its position and its crane total are functions of that sequence.
    The `Path` record mirrors the incrementally built path object, which keeps
    position and total alongside the moves; `Consistent` ties the two views. */
module Paths {
  import opened Grids

  datatype Direction = East | South

  /** The cell one move away from `p`. */
  function Next(p: Pos, d: Direction): Pos {
    match d
    case East => Pos(p.row, p.col + 1)
    case South => Pos(p.row + 1, p.col)
  }

  function Init(steps: seq<Direction>): seq<Direction>
    requires |steps| > 0
  {
    steps[..|steps| - 1]
  }

  function Last(steps: seq<Direction>): Direction
    requires |steps| > 0
  {
    steps[|steps| - 1]
  }

  /** Where a path with these moves, started at the origin, ends. Every move
      advances one coordinate, so a path of n moves ends on anti-diagonal n. */
  function EndOf(steps: seq<Direction>): (e: Pos)
    ensures e.row + e.col == |steps|
  {
    if steps == [] then Pos(0, 0) else Next(EndOf(Init(steps)), Last(steps))
  }

  /** Every cell entered by a move is inside the grid and not a building. The
      origin itself is not checked: entering a cell is what a step validates. */
  predicate ValidSteps(g: Grid, steps: seq<Direction>) {
    steps == [] || (ValidSteps(g, Init(steps)) && IsOpen(g, EndOf(steps)))
  }

  /** A path in the full sense: it also starts on open ground. */
  predicate Route(g: Grid, steps: seq<Direction>) {
    IsOpen(g, Pos(0, 0)) && ValidSteps(g, steps)
  }

  /** Cranes summed over every visited cell, the origin included. */
  function Score(g: Grid, steps: seq<Direction>): nat {
    if steps == [] then Cranes(g, Pos(0, 0)) else Score(g, Init(steps)) + Cranes(g, EndOf(steps))
  }

  /** The path object: its moves, its current position and its running total. */
  datatype Path = Path(steps: seq<Direction>, at: Pos, total: nat)

  /** The stored position and total are the ones the moves determine, and
      every move entered an open cell. */
  predicate Consistent(g: Grid, p: Path) {
    p.at == EndOf(p.steps) && p.total == Score(g, p.steps) && ValidSteps(g, p.steps)
  }

  /** A fresh path: no moves, at the origin, holding the origin's cranes. */
  function Start(g: Grid): (p: Path)
    ensures Consistent(g, p)
    ensures p.steps == [] && p.at == Pos(0, 0)
  {
    Path([], Pos(0, 0), Cranes(g, Pos(0, 0)))
  }

  /** A step is valid when it stays in the grid and lands on a non-building. */
  predicate IsStepValid(g: Grid, p: Path, d: Direction) {
    IsOpen(g, Next(p.at, d))
  }

  /** Append a valid move, move there and collect the new cell's cranes. */
  function AddStep(g: Grid, p: Path, d: Direction): (q: Path)
    requires IsStepValid(g, p, d)
    ensures q.steps == p.steps + [d]
    ensures p.total <= q.total
  {
    Path(p.steps + [d], Next(p.at, d), p.total + Cranes(g, Next(p.at, d)))
  }

  /** Adding a valid step keeps position and total in step with the moves,
      and the path stays valid. */
  lemma AddStepConsistent(g: Grid, p: Path, d: Direction)
    requires Consistent(g, p) && IsStepValid(g, p, d)
    ensures Consistent(g, AddStep(g, p, d))
  {
  }

  /** On a consistent path, a step is valid exactly when the moves extended
      by it still form a valid path. */
  lemma StepValidExtends(g: Grid, p: Path, d: Direction)
    requires Consistent(g, p)
    ensures IsStepValid(g, p, d) <==> ValidSteps(g, p.steps + [d])
  {
    assert Init(p.steps + [d]) == p.steps && Last(p.steps + [d]) == d;
  }

  /** Dropping moves from the end of a valid path leaves a valid path. */
  lemma {:induction false} ValidPrefix(g: Grid, a: seq<Direction>, b: seq<Direction>)
    requires ValidSteps(g, a + b)
    ensures ValidSteps(g, a)
    decreases |b|
  {
    if b == [] {
      assert a + b == a;
    } else {
      assert Init(a + b) == a + Init(b);
      assert ValidSteps(g, a + Init(b));
      ValidPrefix(g, a, Init(b));
    }
  }

  /** The longest path anywhere in a non-empty grid. */
  function MaxSteps(g: Grid): nat
    requires g.rows > 0 && g.columns > 0
  {
    g.rows + g.columns - 2
  }

  /** A valid path never leaves the grid, so it has at most MaxSteps moves. */
  lemma ValidLength(g: Grid, steps: seq<Direction>)
    requires g.rows > 0 && g.columns > 0
    requires ValidSteps(g, steps)
    ensures InBounds(g, EndOf(steps))
    ensures |steps| <= MaxSteps(g)
  {
  }
}
